=== FILE: README.md ===
# cs-alert-back: likes, request guards and password reset, in Dafny

A model of the decision logic of the crypto-scam reporting API. Around it, the
service is routing, persistence and crypto glue. Three pieces are modelled and
proved:

- **Likes on a published scam** (`likeScamPost`, `unLikeScamPost`). A listing's
  likes are an ordered list of user ids. Liking refuses a user who already
  voted and otherwise puts the user at the front. Unliking refuses a user who
  has not voted and otherwise splices out the entry at the first index of the
  user's id. Both keep "each user at most once", and a like followed by an
  unlike restores the list.
- **Request guards** (`protect`, then `restrict`). A guard answers
  `Reject(status, message)` or passes the request on with `Continue(user)`.
  The checks run in order: a header starting with "Bearer" whose second
  space-separated field is a non-empty token; the token verifies; its user
  exists; the password did not change after the token's issue time; and, for
  `restrict`, the role is admin.
- **Password-reset redemption** (`resetPassword`). A user matches only when the
  stored digest equals the digest of the presented token and the stored expiry
  is strictly later than now. On success the new password is hashed and both
  reset fields are cleared, given a schema that declares them.

Around these sit the user schema from `models/user.js`: the role enum and its
default, lower-cased email, the password hidden from default selection, the
pre-save hook that hashes only a modified password, and
`passwordChagedAfterJWT`. The duplicate-email check of `register` and the
uniform failure of `login` are modelled too.

The store is a sequence of records in natural order, so `findOne` and
`findById` return the first match (`Prelude.FindFirst`). Everything outside the
process is a parameter:

- `verify: string -> Verified` stands for JWT signature and expiry checking;
- `sign` stands for JWT issuance;
- `hash` and `matches` stand for bcrypt hashing and comparison, with the random
  salt folded into the oracle;
- `sha256` stands for the hex SHA-256 digest;
- `isEmail` stands for the validator's email rule;
- `now` stands for `Date.now()`, an integer count of milliseconds.

Modules: `Prelude`, `JsString` (`startsWith`, `split`/`join`, `toLowerCase`),
`JsArray` (`indexOf`, `splice`), `Http` (replies), `UserModel`, `ScamLikes`,
`Auth`, `Accounts`, `PasswordReset`.

Points where the handlers behave differently from what one might expect:

- The handlers answer validation failures, a taken email and bad login
  credentials with status 404. They do not use 400, 409 or 401.
- A reset does not update the password-change time, although the comment at
  controllers/user.js:738-739 says it does (see Findings).
- Any header that merely starts with "Bearer" is accepted, so "BearerX tok" also
  yields `tok` (`Auth.BearerRoundTrip` takes any first field with that prefix).

Two decisions about the document library:

- Its lower-case setter is also applied to query values. So the email lookups
  in `register` and `login` compare the lower-cased query with the stored email.
- `resetPassword` loads the user without `+password`. Assigning the new password
  therefore always marks it modified, and the pre-save hook always hashes it.

The user schema in models/user.js declares neither the reset fields nor
`createPasswordResetToken`. The model assumes a schema that declares
`passwordResetToken` and `passwordResetExpires`, so both are stored fields of
the user record (see `PasswordReset.Redeem` under "Left out").

## Model

| member | source | states |
|---|---|---|
| `UserModel.ParseRole` | models/user.js:24-28 | the enum admits exactly "admin" and "user", and a parsed role names back to the same string |
| `UserModel.RoleRoundTrip` | models/user.js:24-28 | every role survives being written as its name and validated back |
| `UserModel.Select` | models/user.js:18-23 | a loaded user carries its password exactly when "+password" was selected; the identity, name, email, role and issue time are those of the stored record |
| `UserModel.Profile` | controllers/user.js:49-54 | the response profile carries the user's id, name and email and a role string that validates back to the stored role |
| `UserModel.HashOnSave` | models/user.js:35-44 | a modified password is stored as its hash; an unmodified one is stored as loaded |
| `UserModel.SaveIsIdempotent` | models/user.js:39-41 | saving again without touching the password leaves the stored digest unchanged (no double hashing) |
| `UserModel.NewUser` | models/user.js:7-44 | a new user keeps the given id and name, gets role "user", a lower-cased email, the hash of its password, no issue time and no pending reset |
| `UserModel.TruncSeconds` | models/user.js:59-62 | the result is the whole seconds of a millisecond time, truncated toward zero, bounded on both sides |
| `UserModel.PasswordChangedAfterJwt` | models/user.js:56-67 | the check fires only when an issue time is recorded; for a time after the epoch exactly when it is at or after the start of the second after iat, before the epoch exactly when it is later than iat's start |
| `UserModel.ChangedIffLaterSecond` | models/user.js:56-67 | for a time after the epoch, the check fires iff the change is at or after the start of the second after the token's iat; a change in the iat second counts as unchanged |
| `UserModel.ChangedIsMonotone` | models/user.js:58-66 | a token that passes the check keeps passing for every later iat, including when no issue time is set |
| `Prelude.FindFirst` | controllers/user.js:724-727 | the lookup returns the first document in natural order that matches, and none iff no document matches |
| `UserModel.FindById` | controllers/user.js:125 | finds a user carrying the id, and finds none iff no stored user has it |
| `UserModel.FindByEmail` | controllers/user.js:29 | finds a user whose stored email is the lower-cased query, and finds none iff no stored user has it |
| `UserModel.FindByIdUnique` | controllers/user.js:125 | with unique ids the lookup returns the one user with that id |
| `JsString.Split` | controllers/user.js:114 | split yields at least one field and no field contains the separator |
| `JsString.JoinSplit` | controllers/user.js:114 | joining the fields of a split gives back the original header |
| `JsString.SplitJoin` | controllers/user.js:114 | splitting a join of separator-free fields gives back the fields |
| `JsString.ToLowerCase` | models/user.js:12-17 | lower-casing keeps the length, maps each ASCII capital to its small letter (code point plus 32), leaves no upper-case letter and keeps every other character |
| `JsString.ToLowerCaseIdempotent` | models/user.js:16 | a stored, already lower-cased email is a fixed point |
| `JsString.ToLowerCaseIgnoresCase` | models/user.js:16 | two equal-length spellings whose characters agree or differ only by an ASCII capital and its small letter lower-case to the same email |
| `JsArray.IndexOf` | controllers/scams.js:125-127 | -1 iff absent; otherwise an index holding the value with no earlier occurrence |
| `JsArray.SpliceOne` | controllers/scams.js:129 | splice(start, 1) removes exactly the element at a start in range, counts a negative start from the end, and removes nothing past the end |
| `ScamLikes.LikesBy` | controllers/scams.js:98 | the filter keeps only entries of the given user |
| `ScamLikes.VotedIffOccurs` | controllers/scams.js:97-99 | the filtered list is non-empty iff the user occurs in the likes |
| `ScamLikes.LikesByOfUnique` | controllers/scams.js:117-119 | in a duplicate-free list the filter finds at most one entry |
| `ScamLikes.Users` | controllers/scams.js:126 | the mapped id list has the entries' user ids in order |
| `ScamLikes.AddLike` | controllers/scams.js:97-103 | liking is refused iff the user already occurs; otherwise the new user entry is at index 0 and the old list follows unchanged |
| `ScamLikes.RemoveLike` | controllers/scams.js:117-129 | unliking is refused iff the user does not occur; otherwise exactly the entry at the first occurrence is removed, the length drops by one and the rest keeps its order |
| `ScamLikes.RemoveFirstAt` | controllers/scams.js:124-129 | removing at the first occurrence equals the reference removal of the first entry of that user |
| `ScamLikes.RemoveLikeIsRemoveFirst` | controllers/scams.js:117-129 | unlike agrees with the reference removal whenever the user has voted |
| `ScamLikes.AddLikeKeepsUnique` | controllers/scams.js:97-103 | a like on a duplicate-free list leaves it duplicate-free, with the liker occurring exactly once |
| `ScamLikes.DropKeepsUnique` | controllers/scams.js:129 | dropping one position of a duplicate-free list keeps it duplicate-free and removes that user |
| `ScamLikes.RemoveLikeKeepsUnique` | controllers/scams.js:124-131 | after an unlike on a duplicate-free list the list stays duplicate-free and the user no longer occurs |
| `ScamLikes.LikeThenUnlike` | controllers/scams.js:93-137 | for a user not yet present, like followed by unlike restores the original list |
| `ScamLikes.FindScam` | controllers/scams.js:95 | finds a listing with the id, and finds none iff no listing has it |
| `ScamLikes.ApplyToScam` | controllers/scams.js:100-105 | 400 exactly for a refusal, with the given text and nothing saved; otherwise the reply is the saved list of the updated listing, and every other listing and every other field of that listing are unchanged |
| `ScamLikes.LikeScamPost` | controllers/scams.js:93-109 | a missing listing gives 404; an existing one always gets 200 or 400, 400 iff the user already liked; on 200 the reply is the user prepended to the likes, and only that listing's likes change |
| `ScamLikes.UnlikeScamPost` | controllers/scams.js:113-137 | a missing listing gives 404; an existing one always gets 200 or 400, 400 iff the user has not liked; on 200 the reply is the likes without the user's first entry, and only that listing's likes change |
| `ScamLikes.HandlersKeepUnique` | controllers/scams.js:93-137 | both handlers keep every listing's likes duplicate-free |
| `Auth.ExtractToken` | controllers/user.js:112-119 | a token is found only in a header starting with "Bearer", and it is non-empty and space-free |
| `Auth.BearerRoundTrip` | controllers/user.js:112-115 | a header of space-free fields whose first starts with "Bearer" yields exactly its second field as the token |
| `Auth.TokenIsSecondField` | controllers/user.js:113-114 | an extracted token is the second field of the header's space-separated fields |
| `Auth.Protect` | controllers/user.js:109-144 | every rejection is 401; no token gives "login" and a failed verification gives the generic message; a continued user is the decoded id's stored user loaded without its password, and it passed the issue-time check |
| `Auth.NoTokenNeverConsults` | controllers/user.js:112-119 | without a "Bearer" header the answer is 401 whatever the verifier and the store say |
| `Auth.InvalidTokenNeverConsults` | controllers/user.js:122 | a token that fails verification is answered 401 whatever the store holds |
| `Auth.ProtectWithVerifiedToken` | controllers/user.js:125-140 | for a verified token: no user with the id gives 401 "may be deleted"; otherwise the first such user is refused 401 if its password changed after iat and passed on without password if not |
| `Auth.Restrict` | controllers/user.js:148-159 | no current user gives 401; a current user passes iff its role string is "admin", and otherwise gets 403 |
| `Auth.AdminOnly` | routes/scams.js:16 | the chain `protect, restrict` repeats any rejection of protect; it passes on protect's decision unchanged, with the same user, exactly when that user is an admin; a user protect passes who is not an admin gets 403 |
| `Auth.AdminOnlyDecides` | controllers/user.js:109-159 | end to end, an admin route passes a request iff its token verifies, names a stored user whose password did not change after iat, and that user is an admin; a fresh verified token of a plain user gets 403 |
| `Accounts.Register` | controllers/user.js:21-60 | an invalid form or a taken email answers 404 and stores nothing; 201 iff the form is valid, the lower-cased email is unused and the id is free; then exactly one user is appended with the given name, role "user", lower-cased email, hashed password, no issue time and no pending reset |
| `Accounts.RegisterKeepsWellFormed` | controllers/user.js:29-47 | registration keeps ids and emails unique and emails lower-case |
| `Accounts.RegisterTwiceRefused` | controllers/user.js:29-32 | after a successful registration, registering the same email again is refused with "Email Already Exists!" and stores nothing |
| `Accounts.Login` | controllers/user.js:64-105 | an invalid form answers 404; a valid form gets either the single failure reply or 200 for a stored user with that email whose password matches; when the first stored user with the lower-cased email accepts the password, the answer is 200 with that user's profile and token |
| `Accounts.LoginFailureIsUniform` | controllers/user.js:76-85 | an unknown email and a wrong password for a known email get the same 404 "Invalid id or password" |
| `Accounts.RegisterThenLogin` | controllers/user.js:35-101 | a freshly registered user logs in with the same email and password and gets its own profile |
| `PasswordReset.FindRedeemable` | controllers/user.js:724-727 | finds the first user whose stored digest equals the token's digest and whose expiry is strictly after now; none iff no user qualifies |
| `PasswordReset.Redeem` | controllers/user.js:734-737 | the saved user has the hash of the new password and no pending reset, keeps its identity, email and role, and (as written) keeps its issue time |
| `PasswordReset.ResetPasswordWith` | controllers/user.js:716-760 | 400 and no change when no user qualifies; a qualifying user with a missing or empty new password gets 401 "Something Went Wrong. Try again later." and no change; 200 iff some user qualifies and the new password is present and non-empty; on 200 only the first qualifying user changes |
| `PasswordReset.ResetPassword` | controllers/user.js:734-739 | as written, a successful reset leaves every user's password issue time unchanged |
| `PasswordReset.ResetPasswordStamped` | controllers/user.js:738-739 | corrected: a successful reset records now as the redeemed user's password issue time |
| `PasswordReset.ExpiredTokenRefused` | controllers/user.js:724-732 | when every holder of the digest has an expiry at or before now, the request is refused 400 and nothing changes |
| `PasswordReset.TokenIsSingleUse` | controllers/user.js:724-737 | after a successful redemption the user has no pending reset, and presenting the same token again is refused 400 |
| `PasswordReset.OldTokenSurvivesReset` | controllers/user.js:734-739 | as written, any request protect passed before a reset still passes after it |
| `PasswordReset.StampedResetRevokesOlderTokens` | controllers/user.js:738-739 | corrected: a token for the redeemed user issued in an earlier second than the reset is refused 401 as stale; one issued in the reset's second or later still passes |

## Left out

- Persistence: queries, `save`, `findByIdAndDelete` and `populate` become operations on a sequence. Failures of the database or connection are not modelled. Two save failures are modelled. In `register`, the save fails when the generated id is already taken. In `resetPassword`, the save fails when the new password is missing or empty and the schema's required rule rejects it; that is answered 401.
- Concurrent like/unlike requests race on the same listing (read-modify-write). The model is sequential.
- `CreateScam`, `getAllScam`, `getSingleScam`, `deleteScam` and `getSearchedItems` are left out. They are schema validation, markdown rendering, the query-feature pipeline (`utils/apifeature` is not part of this model) and database regex search.
- `forgotPassword` is left out. It calls `createPasswordResetToken`, which the user schema in models/user.js does not define. Its email template and sending are I/O.
- Each like entry also gets a generated subdocument id. It is not modelled, so lists are compared by user id.
- Saving a listing also re-runs the slug hook and refreshes the update timestamp. Neither is modelled: `slugify` is an external library, and the title does not change.
- bcrypt, SHA-256, JWT signing and verification, and the email format rule are parameters. Their own behaviour is not modelled.
- Accounts.Register: the validator's error messages, type coercion and rejection of unknown keys are not modelled. A failed validation is a bare 404. The minimum password length counts Unicode characters, while the validator counts UTF-16 code units. So a password of four characters outside the Basic Multilingual Plane, such as four emoji, is accepted by the source (8 code units) but refused by the model.
- Accounts.Login: same omissions as `Accounts.Register`.
- Auth.Protect: an id that is not a well-formed ObjectId makes `findById` throw. The source answers that with 401 "Something Went Wrong, Please Login Again". The model answers 401 with the not-found message.
- PasswordReset.Redeem: the model assumes a user schema that declares `passwordResetToken` and `passwordResetExpires`. models/user.js declares neither. Under the document library's strict mode, assignments to undeclared paths are dropped on save, so the `= undefined` writes at controllers/user.js:735-736 would not be stored. With the schema as written, a stored digest would stay redeemable until it expires, and `PasswordReset.TokenIsSingleUse` would not hold.
- JsString.ToLowerCase: only ASCII letters are lower-cased. JavaScript's `toLowerCase` also maps non-ASCII letters.
- UserModel.TruncSeconds: the input is the integer millisecond value of a `Date`. The token's `iat` is taken to be an integer number of seconds.
- The Express app in `index.js` is left out: helmet, rate limiting, sanitizers, the 404 catch-all and the route wiring.

## Findings

| source | as written | input that shows it | evidently intended | confidence | as-written member | corrected member |
|---|---|---|---|---|---|---|
| controllers/user.js:734-739 | `resetPassword` sets the new password and clears the reset fields, but nothing ever sets `passwordIssueTime`. The comment says "changed in model", yet the pre-save hook in models/user.js:35-44 only hashes. So `passwordChagedAfterJWT` always returns false. | A user with no issue time holds a bearer token with iat t that `protect` accepts. The password is then reset at now ≥ (t + 1) × 1000 ms. The old token is still accepted. | A successful reset records the change time. Tokens issued in an earlier second are then refused 401 as stale. Tokens issued in the reset's second or later, including the one the reset returns, still pass. | high; not executed | `PasswordReset.ResetPassword`, `PasswordReset.OldTokenSurvivesReset` | `PasswordReset.ResetPasswordStamped`, `PasswordReset.StampedResetRevokesOlderTokens` |

=== FILE: accounts.dfy ===
/** Registration and login. Input validation, password hashing and comparison,
    and token signing are parameters: `isEmail` stands for the validator's
    email rule, `hash`/`matches` for the password hashing library, `sign` for
    issuing a bearer token for a user id. */
module Accounts {
  import opened Prelude
  import opened Http
  import opened UserModel
  import JsString

  datatype RegisterForm = RegisterForm(name: Option<string>, email: Option<string>, password: Option<string>)
  datatype LoginForm = LoginForm(email: Option<string>, password: Option<string>)

  /** The body of a successful register, login or reset: the public profile and a token. */
  datatype Session = Session(user: PublicProfile, token: string)

  const MinPasswordLength := 8
  const EmailTaken := "Email Already Exists!"
  const SaveFailed := "Something Went Wrong. Try Again!"
  const BadCredentials := "Invalid id or password"

  /** A required string field: present and not empty. */
  predicate Given(s: Option<string>) {
    s.Some? && s.value != ""
  }

  /** The registration schema: name, a valid email, a password of at least 8 characters. */
  predicate RegisterFormValid(f: RegisterForm, isEmail: string -> bool) {
    && Given(f.name)
    && Given(f.email) && isEmail(f.email.value)
    && Given(f.password) && |f.password.value| >= MinPasswordLength
  }

  /** The login schema: a valid email and a password. */
  predicate LoginFormValid(f: LoginForm, isEmail: string -> bool) {
    Given(f.email) && isEmail(f.email.value) && Given(f.password)
  }

  /** Some stored user already has this email, compared after lower-casing. */
  predicate EmailInUse(users: seq<UserRecord>, email: string) {
    exists k :: 0 <= k < |users| && users[k].email == JsString.ToLowerCase(email)
  }

  /** `register`: validate, refuse a taken email, build the user and save it.
      The save fails (and nothing is stored) if the generated id is taken. */
  function Register(users: seq<UserRecord>, form: RegisterForm, isEmail: string -> bool,
                    newId: UserId, hash: string -> string, sign: UserId -> string):
    (h: Handled<seq<UserRecord>, Session>)
    ensures !RegisterFormValid(form, isEmail) ==> h == Handled(ValidationFailure(404), users)
    ensures RegisterFormValid(form, isEmail) && EmailInUse(users, form.email.value) ==>
              h == Handled(Text(404, EmailTaken), users)
    ensures h.reply.status == 201 <==>
              RegisterFormValid(form, isEmail) && !EmailInUse(users, form.email.value)
              && forall k :: 0 <= k < |users| ==> users[k].id != newId
    ensures h.reply.status != 201 ==> h.reply.status == 404 && h.state == users
    ensures h.reply.status == 201 ==>
      && |h.state| == |users| + 1 && h.state[..|users|] == users
      && var u := h.state[|users|];
      && u.id == newId && u.name == form.name.value
      && u.passwordIssueTime.None? && !ResetPending(u)
      && u.role == User && u.password == hash(form.password.value)
      && u.email == JsString.ToLowerCase(form.email.value)
      && h.reply == Json(201, Session(Profile(u), sign(newId)))
  {
    if !RegisterFormValid(form, isEmail) then Handled(ValidationFailure(404), users)
    else if FindByEmail(users, form.email.value).Some? then Handled(Text(404, EmailTaken), users)
    else
      var u := NewUser(newId, form.name.value, form.email.value, form.password.value, hash);
      var token := sign(u.id);
      if FindById(users, newId).Some? then Handled(Text(404, SaveFailed), users)
      else
        assert (users + [u])[..|users|] == users;
        Handled(Json(201, Session(Profile(u), token)), users + [u])
  }

  /** Registration keeps ids and emails unique and emails lower-case. */
  lemma RegisterKeepsWellFormed(users: seq<UserRecord>, form: RegisterForm, isEmail: string -> bool,
                                newId: UserId, hash: string -> string, sign: UserId -> string)
    requires WellFormed(users)
    ensures WellFormed(Register(users, form, isEmail, newId, hash, sign).state)
  {
  }

  /** Registering again with an email that was just registered is refused. */
  lemma RegisterTwiceRefused(users: seq<UserRecord>, form: RegisterForm, isEmail: string -> bool,
                             firstId: UserId, secondId: UserId, hash: string -> string, sign: UserId -> string)
    requires Register(users, form, isEmail, firstId, hash, sign).reply.status == 201
    ensures var after := Register(users, form, isEmail, firstId, hash, sign).state;
            Register(after, form, isEmail, secondId, hash, sign) == Handled(Text(404, EmailTaken), after)
  {
  }

  /** `login`: validate, find the user by email with its password selected,
      compare the password; both failures give the same answer. */
  function Login(users: seq<UserRecord>, form: LoginForm, isEmail: string -> bool,
                 matches: (string, string) -> bool, sign: UserId -> string): (r: Reply<Session>)
    ensures !LoginFormValid(form, isEmail) ==> r == ValidationFailure(404)
    ensures LoginFormValid(form, isEmail) ==> r.Json? || r == Text(404, BadCredentials)
    ensures r.Json? ==>
      exists k :: 0 <= k < |users| && users[k].email == JsString.ToLowerCase(form.email.value)
               && matches(form.password.value, users[k].password)
               && r == Json(200, Session(Profile(users[k]), sign(users[k].id)))
    ensures LoginFormValid(form, isEmail) && FindByEmail(users, form.email.value).Some?
            && matches(form.password.value, users[FindByEmail(users, form.email.value).value].password) ==>
              var u := users[FindByEmail(users, form.email.value).value];
              r == Json(200, Session(Profile(u), sign(u.id)))
  {
    if !LoginFormValid(form, isEmail) then ValidationFailure(404)
    else
      match FindByEmail(users, form.email.value)
      case None => Text(404, BadCredentials)
      case Some(i) =>
        var loaded := Select(users[i], true);
        if !matches(form.password.value, loaded.password.value) then Text(404, BadCredentials)
        else Json(200, Session(Profile(users[i]), sign(users[i].id)))
  }

  /** An unknown email and a wrong password for a known one are answered
      identically, so the answer does not reveal which emails are registered. */
  lemma LoginFailureIsUniform(users: seq<UserRecord>, form: LoginForm, isEmail: string -> bool,
                              matches: (string, string) -> bool, sign: UserId -> string)
    requires WellFormed(users) && LoginFormValid(form, isEmail)
    ensures !EmailInUse(users, form.email.value) ==>
              Login(users, form, isEmail, matches, sign) == Text(404, BadCredentials)
    ensures forall k :: 0 <= k < |users| && users[k].email == JsString.ToLowerCase(form.email.value)
                        && !matches(form.password.value, users[k].password) ==>
              Login(users, form, isEmail, matches, sign) == Text(404, BadCredentials)
  {
  }

  /** A freshly registered user can log in with the same email and password,
      provided the password library accepts a password against its own hash. */
  lemma RegisterThenLogin(users: seq<UserRecord>, form: RegisterForm, isEmail: string -> bool,
                          newId: UserId, hash: string -> string, matches: (string, string) -> bool,
                          sign: UserId -> string)
    requires Register(users, form, isEmail, newId, hash, sign).reply.status == 201
    requires matches(form.password.value, hash(form.password.value))
    ensures var after := Register(users, form, isEmail, newId, hash, sign).state;
            Login(after, LoginForm(form.email, form.password), isEmail, matches, sign)
              == Json(200, Session(Profile(after[|users|]), sign(newId)))
  {
  }
}

=== FILE: auth.dfy ===
/** The request guards: `protect` resolves a bearer token to the current user,
    `restrict` lets only administrators through. Token verification and the
    user lookup are parameters: the verifier stands for signature and expiry
    checking with the server secret, the collection for the user store. */
module Auth {
  import opened Prelude
  import opened JsString
  import opened UserModel

  /** The payload of a verified token: the user id and the issue time in seconds. */
  datatype Decoded = Decoded(id: UserId, iat: int)

  /** What verifying a token yields: its payload, or an error (bad signature,
      expired, malformed — every such error is caught and answered alike). */
  datatype Verified = Valid(payload: Decoded) | Invalid

  /** A guard either answers the request itself or passes it on with the user. */
  datatype Decision = Reject(status: int, message: string) | Continue(user: UserView)

  const BearerScheme := "Bearer"
  const MustLogin := "You have to login for this action."
  const UserGone := "User may be deleted! Try Login Again"
  const PasswordChanged := "User recently changed password! Try login Again"
  const LoginAgain := "Something Went Wrong, Please Login Again"
  const NotAllowed := "You don't have permission to perform this action"

  /** The token of an `Authorization` header: when the header starts with
      "Bearer", the second space-separated field, if there is one and it is
      not empty. */
  function ExtractToken(header: Option<string>): (token: Option<string>)
    ensures token.Some? ==> header.Some? && StartsWith(header.value, BearerScheme)
    ensures token.Some? ==> token.value != "" && ' ' !in token.value
  {
    match header
    case None => None
    case Some(h) =>
      if !StartsWith(h, BearerScheme) then None
      else
        var fields := Split(h, ' ');
        if |fields| > 1 && fields[1] != "" then Some(fields[1]) else None
  }

  /** A header built as "Bearer<...> <token> <more fields>" yields exactly that token. */
  lemma BearerRoundTrip(fields: seq<string>)
    requires |fields| >= 2 && SeparatorFree(fields, ' ')
    requires StartsWith(fields[0], BearerScheme) && fields[1] != ""
    ensures ExtractToken(Some(Join(fields, ' '))) == Some(fields[1])
  {
    SplitJoin(fields, ' ');
    JoinStartsWith(fields, ' ', BearerScheme);
  }

  /** Conversely, an extracted token is the second field of a header that
      starts with "Bearer" and is made of space-free fields. */
  lemma TokenIsSecondField(h: string, token: string)
    requires ExtractToken(Some(h)) == Some(token)
    ensures exists fields :: |fields| >= 2 && SeparatorFree(fields, ' ') && fields[1] == token
                             && h == Join(fields, ' ')
  {
    JoinSplit(h, ' ');
    var fields := Split(h, ' ');
    assert h == Join(fields, ' ');
  }

  /** `protect`: token present, token verifies, its user still exists, and the
      password was not changed after the token was issued; otherwise 401. */
  function Protect(header: Option<string>, verify: string -> Verified, users: seq<UserRecord>): (d: Decision)
    ensures d.Reject? ==> d.status == 401
    ensures d.Continue? ==> d.user.password.None?
    ensures ExtractToken(header).None? ==> d == Reject(401, MustLogin)
    ensures ExtractToken(header).Some? && verify(ExtractToken(header).value).Invalid? ==>
              d == Reject(401, LoginAgain)
    ensures d.Continue? ==>
      && ExtractToken(header).Some?
      && var decoded := verify(ExtractToken(header).value);
      && decoded.Valid?
      && d.user.id == decoded.payload.id
      && FindById(users, decoded.payload.id).Some?
      && d.user == Select(users[FindById(users, decoded.payload.id).value], false)
      && !PasswordChangedAfterJwt(d.user.passwordIssueTime, decoded.payload.iat)
  {
    match ExtractToken(header)
    case None => Reject(401, MustLogin)
    case Some(token) =>
      match verify(token)
      case Invalid => Reject(401, LoginAgain)
      case Valid(decoded) =>
        match FindById(users, decoded.id)
        case None => Reject(401, UserGone)
        case Some(i) =>
          if PasswordChangedAfterJwt(users[i].passwordIssueTime, decoded.iat) then
            Reject(401, PasswordChanged)
          else
            Continue(Select(users[i], false))
  }

  /** A request without a usable bearer token is refused before the verifier
      or the store is consulted: the answer depends on neither. */
  lemma NoTokenNeverConsults(header: Option<string>, verify1: string -> Verified, users1: seq<UserRecord>,
                             verify2: string -> Verified, users2: seq<UserRecord>)
    requires header.None? || !StartsWith(header.value, BearerScheme)
    ensures Protect(header, verify1, users1) == Protect(header, verify2, users2) == Reject(401, MustLogin)
  {
  }

  /** A token that fails verification is refused before the store is consulted. */
  lemma InvalidTokenNeverConsults(header: Option<string>, verify: string -> Verified,
                                  users1: seq<UserRecord>, users2: seq<UserRecord>)
    requires ExtractToken(header).Some? && verify(ExtractToken(header).value).Invalid?
    ensures Protect(header, verify, users1) == Protect(header, verify, users2) == Reject(401, LoginAgain)
  {
  }

  /** Full characterisation of the two later checks, for a token that verifies:
      a missing user and a stale token are each refused with their own message,
      and otherwise the stored user (without its password) is passed on. */
  lemma ProtectWithVerifiedToken(header: Option<string>, verify: string -> Verified,
                                 users: seq<UserRecord>, decoded: Decoded)
    requires ExtractToken(header).Some? && verify(ExtractToken(header).value) == Valid(decoded)
    ensures (forall k :: 0 <= k < |users| ==> users[k].id != decoded.id) ==>
              Protect(header, verify, users) == Reject(401, UserGone)
    ensures forall k :: 0 <= k < |users| && users[k].id == decoded.id &&
                        (forall j :: 0 <= j < k ==> users[j].id != decoded.id) ==>
              Protect(header, verify, users) ==
                (if PasswordChangedAfterJwt(users[k].passwordIssueTime, decoded.iat)
                 then Reject(401, PasswordChanged)
                 else Continue(Select(users[k], false)))
  {
  }

  /** `restrict`: runs after `protect`. With no current user the role lookup
      throws and the request is answered 401; a non-administrator gets 403. */
  function Restrict(current: Option<UserView>): (d: Decision)
    ensures current.None? ==> d == Reject(401, LoginAgain)
    ensures current.Some? ==> (d.Continue? <==> RoleName(current.value.role) == "admin")
    ensures current.Some? && d.Continue? ==> d.user == current.value
    ensures current.Some? && d.Reject? ==> d == Reject(403, NotAllowed)
  {
    match current
    case None => Reject(401, LoginAgain)
    case Some(u) => if u.role != Admin then Reject(403, NotAllowed) else Continue(u)
  }

  /** The guard of administrator routes: `protect`, then `restrict`. */
  function AdminOnly(header: Option<string>, verify: string -> Verified, users: seq<UserRecord>): (d: Decision)
    ensures d.Reject? ==> d.status == 401 || d == Reject(403, NotAllowed)
    ensures d.Continue? ==> d.user.role == Admin && d.user.password.None?
    ensures Protect(header, verify, users).Reject? ==> d == Protect(header, verify, users)
    ensures d.Continue? <==> Protect(header, verify, users).Continue? && Protect(header, verify, users).user.role == Admin
    ensures d.Continue? ==> d == Protect(header, verify, users)
    ensures Protect(header, verify, users).Continue? && Protect(header, verify, users).user.role != Admin ==>
              d == Reject(403, NotAllowed)
  {
    match Protect(header, verify, users)
    case Reject(code, message) => Reject(code, message)
    case Continue(u) => Restrict(Some(u))
  }

  /** End to end, an administrator route passes a request exactly when its
      bearer token verifies, names a stored user whose password did not change
      after the token was issued, and that user is an administrator; a
      verified, fresh token of a plain user is answered 403. */
  lemma AdminOnlyDecides(header: Option<string>, verify: string -> Verified, users: seq<UserRecord>)
    ensures var d := AdminOnly(header, verify, users);
            d.Continue? <==>
              && ExtractToken(header).Some?
              && var v := verify(ExtractToken(header).value);
              && v.Valid?
              && FindById(users, v.payload.id).Some?
              && var u := users[FindById(users, v.payload.id).value];
              && !PasswordChangedAfterJwt(u.passwordIssueTime, v.payload.iat)
              && u.role == Admin
    ensures forall k :: 0 <= k < |users| && users[k].role == User ==>
              ExtractToken(header).Some? && verify(ExtractToken(header).value).Valid?
              && FindById(users, verify(ExtractToken(header).value).payload.id) == Some(k)
              && !PasswordChangedAfterJwt(users[k].passwordIssueTime, verify(ExtractToken(header).value).payload.iat)
              ==> AdminOnly(header, verify, users) == Reject(403, NotAllowed)
  {
  }
}

=== FILE: http.dfy ===
/** What a request handler sends back, and the collection it leaves behind. */
module Http {

  /** `res.status(code).send(text)`, `res.status(code).json(value)`, or the
      first message of a failed schema validation (whose wording belongs to the
      validation library and is not modelled). */
  datatype Reply<+T> =
    | Text(status: int, text: string)
    | Json(status: int, value: T)
    | ValidationFailure(status: int)

  /** A handler's reply together with the state of the collection it touched. */
  datatype Handled<+S, +T> = Handled(reply: Reply<T>, state: S)
}

=== FILE: jsarray.dfy ===
/** The JavaScript array operations used on a scam's like list. */
module JsArray {

  /** `s.indexOf(x)` under strict equality: the first index of `x`, or -1. */
  function IndexOf<T(==)>(s: seq<T>, x: T): (i: int)
    ensures -1 <= i < |s|
    ensures i == -1 <==> x !in s
    ensures 0 <= i ==> s[i] == x && forall j :: 0 <= j < i ==> s[j] != x
    decreases |s|
  {
    if |s| == 0 then -1
    else if s[0] == x then 0
    else
      var k := IndexOf(s[1..], x);
      if k == -1 then -1 else k + 1
  }

  /** The array left by `s.splice(start, 1)`. A negative start counts from the
      end (clamped at 0); a start at or past the end removes nothing. */
  function SpliceOne<T>(s: seq<T>, start: int): (r: seq<T>)
    ensures 0 <= start < |s| ==> r == s[..start] + s[start + 1..]
    ensures |s| <= start ==> r == s
    ensures -|s| <= start < 0 ==> r == s[..|s| + start] + s[|s| + start + 1..]
    ensures start < -|s| && |s| > 0 ==> r == s[1..]
    ensures |s| > 0 ==> |r| == |s| - 1 || |s| <= start
  {
    var from :=
      if start < 0 then (if |s| + start < 0 then 0 else |s| + start)
      else (if start > |s| then |s| else start);
    if from < |s| then s[..from] + s[from + 1..] else s
  }
}

=== FILE: jsstring.dfy ===
/** The few JavaScript string operations the request handlers rely on,
    with their ECMAScript behaviour on `seq<char>`. */
module JsString {

  /** `s.startsWith(prefix)`. */
  predicate StartsWith(s: string, prefix: string) {
    |prefix| <= |s| && s[..|prefix|] == prefix
  }

  /** `fields.join(sep)` for a non-empty array of strings. */
  function Join(fields: seq<string>, sep: char): string
    requires |fields| >= 1
    decreases |fields|
  {
    if |fields| == 1 then fields[0] else fields[0] + [sep] + Join(fields[1..], sep)
  }

  /** No field contains the separator. */
  predicate SeparatorFree(fields: seq<string>, sep: char) {
    forall k :: 0 <= k < |fields| ==> sep !in fields[k]
  }

  /** `s.split(sep)` for a one-character separator: every occurrence of `sep`
      ends a field, so "" gives [""] and adjacent separators give empty fields. */
  function Split(s: string, sep: char): (fields: seq<string>)
    ensures |fields| >= 1
    ensures SeparatorFree(fields, sep)
    decreases |s|
  {
    if |s| == 0 then [""]
    else
      var rest := Split(s[1..], sep);
      assert s == [s[0]] + s[1..];
      if s[0] == sep then [""] + rest
      else [[s[0]] + rest[0]] + rest[1..]
  }

  /** Splitting and re-joining gives back the original text. */
  lemma {:induction false} JoinSplit(s: string, sep: char)
    ensures Join(Split(s, sep), sep) == s
    decreases |s|
  {
    if |s| > 0 {
      var rest := Split(s[1..], sep);
      JoinSplit(s[1..], sep);
      var fields := Split(s, sep);
      if s[0] == sep {
        assert fields[1..] == rest;
      } else if |rest| > 1 {
        assert fields[1..] == rest[1..];
        assert Join(rest, sep) == rest[0] + [sep] + Join(rest[1..], sep);
      }
    }
  }

  /** Joining separator-free fields and splitting again gives back the fields. */
  lemma {:induction false} SplitJoin(fields: seq<string>, sep: char)
    requires |fields| >= 1
    requires SeparatorFree(fields, sep)
    ensures Split(Join(fields, sep), sep) == fields
    decreases |fields|, |fields[0]|
  {
    var f := fields[0];
    if |f| == 0 {
      if |fields| > 1 {
        var tail := Join(fields[1..], sep);
        assert Join(fields, sep) == [sep] + tail;
        assert (Join(fields, sep))[1..] == tail;
        SplitJoin(fields[1..], sep);
        assert fields == [""] + fields[1..];
      }
    } else {
      var shorter := [f[1..]] + fields[1..];
      assert shorter[1..] == fields[1..];
      assert f == [f[0]] + f[1..];
      assert f[0] != sep;
      assert SeparatorFree(shorter, sep) by {
        forall k | 0 <= k < |shorter| ensures sep !in shorter[k] {
          if k > 0 { assert shorter[k] == fields[k]; }
        }
      }
      SplitJoin(shorter, sep);
      var s := Join(fields, sep);
      if |fields| == 1 {
        assert s[1..] == Join(shorter, sep);
      } else {
        assert s == f + [sep] + Join(fields[1..], sep);
        assert Join(shorter, sep) == f[1..] + [sep] + Join(fields[1..], sep);
        assert s[1..] == Join(shorter, sep);
      }
      assert s[0] == f[0];
      var rest := Split(s[1..], sep);
      assert rest == shorter;
      assert fields == [[f[0]] + rest[0]] + rest[1..];
    }
  }

  /** The prefix of a join is the prefix of its first field. */
  lemma JoinStartsWith(fields: seq<string>, sep: char, prefix: string)
    requires |fields| >= 1 && StartsWith(fields[0], prefix)
    ensures StartsWith(Join(fields, sep), prefix)
  {
  }

  /** `c.toLowerCase()` restricted to ASCII: A-Z map to a-z, every other
      character is left alone. */
  function LowerChar(c: char): (d: char)
    ensures 'A' <= c <= 'Z' ==> 'a' <= d <= 'z' && d as int - c as int == 32
    ensures !('A' <= c <= 'Z') ==> d == c
  {
    if 'A' <= c <= 'Z' then (c as int + 32) as char else c
  }

  predicate IsLowerCase(s: string) {
    forall i :: 0 <= i < |s| ==> !('A' <= s[i] <= 'Z')
  }

  /** `s.toLowerCase()` (ASCII letters only). */
  function ToLowerCase(s: string): (r: string)
    ensures |r| == |s|
    ensures IsLowerCase(r)
    ensures forall i :: 0 <= i < |s| && !('A' <= s[i] <= 'Z') ==> r[i] == s[i]
    ensures forall i :: 0 <= i < |s| && 'A' <= s[i] <= 'Z' ==> r[i] as int == s[i] as int + 32
  {
    seq(|s|, i requires 0 <= i < |s| => LowerChar(s[i]))
  }

  /** Lower-casing is idempotent: a stored, already lower-cased value is a fixed point. */
  lemma ToLowerCaseIdempotent(s: string)
    ensures ToLowerCase(ToLowerCase(s)) == ToLowerCase(s)
  {
  }

  /** Two spellings that differ only in the case of ASCII letters lower-case alike. */
  lemma ToLowerCaseIgnoresCase(a: string, b: string)
    requires |a| == |b|
    requires forall i :: 0 <= i < |a| ==>
               || a[i] == b[i]
               || ('A' <= a[i] <= 'Z' && b[i] as int == a[i] as int + 32)
               || ('A' <= b[i] <= 'Z' && a[i] as int == b[i] as int + 32)
    ensures ToLowerCase(a) == ToLowerCase(b)
  {
  }
}

=== FILE: prelude.dfy ===
/** Small shared vocabulary: optional values and "first match" lookup, which is
    what a document store's `findOne`/`findById` returns when documents are
    visited in natural (insertion) order. */
module Prelude {

  datatype Option<+T> = None | Some(value: T)

  /** Index of the first element of `s` that satisfies `p`, or None. */
  function FindFirst<T>(s: seq<T>, p: T -> bool): (r: Option<nat>)
    ensures r.Some? ==> r.value < |s| && p(s[r.value])
    ensures r.Some? ==> forall j :: 0 <= j < r.value ==> !p(s[j])
    ensures r.None? <==> forall j :: 0 <= j < |s| ==> !p(s[j])
    decreases |s|
  {
    if |s| == 0 then None
    else if p(s[0]) then Some(0)
    else
      match FindFirst(s[1..], p)
      case None => None
      case Some(k) => Some(k + 1)
  }
}

=== FILE: reset.dfy ===
/** Redeeming a password-reset token. A user is in one of two states: a reset
    is pending (a stored token digest and expiry) or none is. Redemption hashes
    the presented token, finds the first user whose stored digest matches and
    whose expiry is still in the future, sets the new password and clears both
    reset fields. Hashing, signing and the clock are parameters. */
module PasswordReset {
  import opened Prelude
  import opened Http
  import opened UserModel
  import Auth
  import Accounts

  const TokenRejected := "Token is invalid or expired"
  const SaveFailed := "Something Went Wrong. Try again later."

  /** The stored reset state matches the digest and has not expired at `now`
      (the expiry must be strictly later). */
  predicate Redeemable(u: UserRecord, digest: string, now: int) {
    u.resetTokenHash == Some(digest) && u.resetExpires.Some? && u.resetExpires.value > now
  }

  /** `User.findOne({ passwordResetToken: digest, passwordResetExpires: { $gt: now } })`. */
  function FindRedeemable(users: seq<UserRecord>, digest: string, now: int): (r: Option<nat>)
    ensures r.Some? ==> r.value < |users| && Redeemable(users[r.value], digest, now)
    ensures r.Some? ==> forall j :: 0 <= j < r.value ==> !Redeemable(users[j], digest, now)
    ensures r.None? <==> forall k :: 0 <= k < |users| ==> !Redeemable(users[k], digest, now)
  {
    FindFirst(users, (u: UserRecord) => Redeemable(u, digest, now))
  }

  /** The schema's `required` rule on the password: present and not empty. */
  predicate PasswordAccepted(p: Option<string>) {
    p.Some? && p.value != ""
  }

  /** The record saved on redemption. The user was loaded without its password,
      so the new one always counts as modified and is hashed. With
      `recordIssueTime` the password issue time is also set to `now`. */
  function Redeem(u: UserRecord, newPassword: string, now: int, hash: string -> string,
                  recordIssueTime: bool): (v: UserRecord)
    ensures v.password == hash(newPassword)
    ensures !ResetPending(v)
    ensures v.id == u.id && v.name == u.name && v.email == u.email && v.role == u.role
    ensures v.passwordIssueTime == (if recordIssueTime then Some(now) else u.passwordIssueTime)
  {
    var stored := HashOnSave(Select(u, false).password, newPassword, hash);
    var cleared := u.(password := stored, resetTokenHash := None, resetExpires := None);
    if recordIssueTime then cleared.(passwordIssueTime := Some(now)) else cleared
  }

  /** The reset handler, with or without recording the password issue time. */
  function ResetPasswordWith(users: seq<UserRecord>, token: string, newPassword: Option<string>, now: int,
                             sha256: string -> string, hash: string -> string, sign: UserId -> string,
                             recordIssueTime: bool): (h: Handled<seq<UserRecord>, Accounts.Session>)
    ensures h.reply.status == 200 || h.reply.status == 400 || h.reply.status == 401
    ensures (forall k :: 0 <= k < |users| ==> !Redeemable(users[k], sha256(token), now)) ==>
              h == Handled(Text(400, TokenRejected), users)
    ensures h.reply.status == 200 <==>
              (exists k :: 0 <= k < |users| && Redeemable(users[k], sha256(token), now))
              && PasswordAccepted(newPassword)
    ensures h.reply.status != 200 ==> h.state == users
    ensures FindRedeemable(users, sha256(token), now).Some? && !PasswordAccepted(newPassword) ==>
              h == Handled(Text(401, SaveFailed), users)
    ensures |h.state| == |users|
    ensures h.reply.status == 200 ==> FindRedeemable(users, sha256(token), now).Some?
    ensures h.reply.status == 200 ==>
      var i := FindRedeemable(users, sha256(token), now).value;
      var v := Redeem(users[i], newPassword.value, now, hash, recordIssueTime);
      && h.state == users[i := v]
      && h.reply == Json(200, Accounts.Session(Profile(v), sign(v.id)))
  {
    match FindRedeemable(users, sha256(token), now)
    case None => Handled(Text(400, TokenRejected), users)
    case Some(i) =>
      if !PasswordAccepted(newPassword) then Handled(Text(401, SaveFailed), users)
      else
        var v := Redeem(users[i], newPassword.value, now, hash, recordIssueTime);
        Handled(Json(200, Accounts.Session(Profile(v), sign(v.id))), users[i := v])
  }

  /** `resetPassword` as written: the password issue time is never set. */
  function ResetPassword(users: seq<UserRecord>, token: string, newPassword: Option<string>, now: int,
                         sha256: string -> string, hash: string -> string, sign: UserId -> string):
    (h: Handled<seq<UserRecord>, Accounts.Session>)
    ensures h.reply.status == 200 ==>
      && |h.state| == |users|
      && forall k :: 0 <= k < |users| ==> h.state[k].passwordIssueTime == users[k].passwordIssueTime
  {
    ResetPasswordWith(users, token, newPassword, now, sha256, hash, sign, false)
  }

  /** `resetPassword` as evidently intended (the comment at
      controllers/user.js:738-739): a successful reset records the time the
      password changed, so tokens issued earlier stop working. */
  function ResetPasswordStamped(users: seq<UserRecord>, token: string, newPassword: Option<string>, now: int,
                                sha256: string -> string, hash: string -> string, sign: UserId -> string):
    (h: Handled<seq<UserRecord>, Accounts.Session>)
    ensures h.reply.status == 200 ==>
      && FindRedeemable(users, sha256(token), now).Some?
      && |h.state| == |users|
      && h.state[FindRedeemable(users, sha256(token), now).value].passwordIssueTime == Some(now)
  {
    ResetPasswordWith(users, token, newPassword, now, sha256, hash, sign, true)
  }

  /** An expired reset never redeems: if every user holding the token's digest
      has an expiry at or before `now`, the request is refused with 400. */
  lemma ExpiredTokenRefused(users: seq<UserRecord>, token: string, newPassword: Option<string>, now: int,
                            sha256: string -> string, hash: string -> string, sign: UserId -> string,
                            recordIssueTime: bool)
    requires forall k :: 0 <= k < |users| && users[k].resetTokenHash == Some(sha256(token)) ==>
               users[k].resetExpires.Some? && users[k].resetExpires.value <= now
    ensures ResetPasswordWith(users, token, newPassword, now, sha256, hash, sign, recordIssueTime)
              == Handled(Text(400, TokenRejected), users)
  {
  }

  /** At most one user holds this reset digest. */
  predicate SingleHolder(users: seq<UserRecord>, digest: string) {
    forall j, k ::
      (0 <= j < |users| && 0 <= k < |users| &&
       users[j].resetTokenHash == Some(digest) && users[k].resetTokenHash == Some(digest)) ==> j == k
  }

  /** A reset token works once: after a successful redemption, presenting the
      same token again (at any time, with any password) is refused, and the
      redeemed user is left with no reset pending. */
  lemma TokenIsSingleUse(users: seq<UserRecord>, token: string, p1: Option<string>, now1: int,
                         p2: Option<string>, now2: int,
                         sha256: string -> string, hash: string -> string, sign: UserId -> string,
                         recordIssueTime: bool)
    requires SingleHolder(users, sha256(token))
    requires ResetPasswordWith(users, token, p1, now1, sha256, hash, sign, recordIssueTime).reply.status == 200
    ensures var after := ResetPasswordWith(users, token, p1, now1, sha256, hash, sign, recordIssueTime).state;
            && !ResetPending(after[FindRedeemable(users, sha256(token), now1).value])
            && ResetPasswordWith(after, token, p2, now2, sha256, hash, sign, recordIssueTime)
               == Handled(Text(400, TokenRejected), after)
  {
  }

  /** As written, a reset does not revoke bearer tokens: any request that
      `protect` let through before a successful reset is let through after it,
      the old token included. */
  lemma OldTokenSurvivesReset(users: seq<UserRecord>, token: string, newPassword: Option<string>, now: int,
                              sha256: string -> string, hash: string -> string, sign: UserId -> string,
                              header: Option<string>, verify: string -> Auth.Verified)
    requires ResetPassword(users, token, newPassword, now, sha256, hash, sign).reply.status == 200
    requires Auth.Protect(header, verify, users).Continue?
    ensures Auth.Protect(header, verify, ResetPassword(users, token, newPassword, now, sha256, hash, sign).state).Continue?
  {
    var after := ResetPassword(users, token, newPassword, now, sha256, hash, sign).state;
    var decoded := verify(Auth.ExtractToken(header).value).payload;
    FindByIdIgnoresOtherFields(users, after, decoded.id);
  }

  /** Corrected: after a stamped reset, a token for the redeemed user issued in
      an earlier second than the reset is refused as stale, while one issued in
      the reset's second or later (such as the one the reset itself returns)
      still passes. */
  lemma StampedResetRevokesOlderTokens(users: seq<UserRecord>, token: string, newPassword: Option<string>,
                                       now: int, sha256: string -> string, hash: string -> string,
                                       sign: UserId -> string, header: Option<string>,
                                       verify: string -> Auth.Verified, iat: int)
    requires UniqueIds(users)
    requires ResetPasswordStamped(users, token, newPassword, now, sha256, hash, sign).reply.status == 200
    requires Auth.ExtractToken(header).Some?
    requires verify(Auth.ExtractToken(header).value)
             == Auth.Valid(Auth.Decoded(users[FindRedeemable(users, sha256(token), now).value].id, iat))
    ensures var after := ResetPasswordStamped(users, token, newPassword, now, sha256, hash, sign).state;
            && (iat < TruncSeconds(now) ==>
                  Auth.Protect(header, verify, after) == Auth.Reject(401, Auth.PasswordChanged))
            && (iat >= TruncSeconds(now) ==> Auth.Protect(header, verify, after).Continue?)
  {
  }
}

=== FILE: scamlikes.dfy ===
/** Liking and unliking a published scam listing. A listing's likes are an
    ordered list of user references; a user may appear in it at most once. */
module ScamLikes {
  import opened Prelude
  import opened Http
  import JsArray
  import UserModel

  type UserId = UserModel.UserId
  type ScamId = string

  /** One entry of a listing's `likes` array. */
  datatype Like = Like(user: UserId)

  /** A published listing (the fields the like handlers touch or keep). */
  datatype Scam = Scam(id: ScamId, title: string, slug: string, author: string, link: string, likes: seq<Like>)

  const AlreadyVoted := "You already voted this report!"
  const NotVoted := "Report has not yet been voted by you."
  const LookupFailed := "something went wrong, try again"

  /** The entries belonging to `user`: the filter both handlers apply. */
  function LikesBy(likes: seq<Like>, user: UserId): (r: seq<Like>)
    ensures |r| <= |likes|
    ensures forall k :: 0 <= k < |r| ==> r[k] == Like(user)
    decreases |likes|
  {
    if |likes| == 0 then []
    else if likes[0].user == user then [likes[0]] + LikesBy(likes[1..], user)
    else LikesBy(likes[1..], user)
  }

  /** The user already has an entry: the filtered list is non-empty. */
  predicate Voted(likes: seq<Like>, user: UserId) {
    |LikesBy(likes, user)| > 0
  }

  /** Some position of the list holds `user`. */
  predicate Occurs(likes: seq<Like>, user: UserId) {
    exists i :: 0 <= i < |likes| && likes[i].user == user
  }

  /** Each user appears at most once. */
  predicate NoDuplicates(likes: seq<Like>) {
    forall i, j :: 0 <= i < j < |likes| ==> likes[i].user != likes[j].user
  }

  /** `i` is the first position holding `user`. */
  predicate FirstOccurrence(likes: seq<Like>, user: UserId, i: int) {
    && 0 <= i < |likes|
    && likes[i].user == user
    && forall j :: 0 <= j < i ==> likes[j].user != user
  }

  /** The filter finds an entry exactly when the user occurs in the list. */
  lemma {:induction false} VotedIffOccurs(likes: seq<Like>, user: UserId)
    ensures Voted(likes, user) <==> Occurs(likes, user)
    decreases |likes|
  {
    if |likes| > 0 {
      VotedIffOccurs(likes[1..], user);
      if Occurs(likes[1..], user) {
        var i :| 0 <= i < |likes[1..]| && likes[1..][i].user == user;
        assert likes[i + 1].user == user;
      }
      if Occurs(likes, user) && likes[0].user != user {
        var i :| 0 <= i < |likes| && likes[i].user == user;
        assert likes[1..][i - 1].user == user;
      }
    }
  }

  /** The filtered list counts the user's entries; a duplicate-free list has at most one. */
  lemma {:induction false} LikesByOfUnique(likes: seq<Like>, user: UserId)
    requires NoDuplicates(likes)
    ensures |LikesBy(likes, user)| <= 1
    decreases |likes|
  {
    if |likes| > 0 {
      LikesByOfUnique(likes[1..], user);
      if likes[0].user == user {
        forall i | 0 <= i < |likes[1..]| ensures likes[1..][i].user != user {
          assert likes[1..][i] == likes[i + 1];
        }
        VotedIffOccurs(likes[1..], user);
      }
    }
  }

  /** The user ids of the entries, in order (`likes.map(like => like.user.toString())`). */
  function Users(likes: seq<Like>): (ids: seq<UserId>)
    ensures |ids| == |likes|
    ensures forall k :: 0 <= k < |likes| ==> ids[k] == likes[k].user
  {
    seq(|likes|, k requires 0 <= k < |likes| => likes[k].user)
  }

  /** The outcome of a list operation: refused (400), or the new list. */
  datatype Update = Refused | Updated(likes: seq<Like>)

  /** Liking: refuse a user who already voted, otherwise put the user in front. */
  function AddLike(likes: seq<Like>, user: UserId): (r: Update)
    ensures Occurs(likes, user) <==> r == Refused
    ensures r.Updated? ==> |r.likes| == |likes| + 1 && r.likes[0] == Like(user) && r.likes[1..] == likes
  {
    VotedIffOccurs(likes, user);
    if Voted(likes, user) then Refused
    else Updated([Like(user)] + likes)
  }

  /** Unliking: refuse a user who has not voted, otherwise splice out the entry
      at the first index of the user's id. */
  function RemoveLike(likes: seq<Like>, user: UserId): (r: Update)
    ensures !Occurs(likes, user) <==> r == Refused
    ensures r.Updated? ==> |r.likes| == |likes| - 1
    ensures r.Updated? ==>
      exists i :: FirstOccurrence(likes, user, i) && r.likes == likes[..i] + likes[i + 1..]
  {
    VotedIffOccurs(likes, user);
    if !Voted(likes, user) then Refused
    else
      var i := JsArray.IndexOf(Users(likes), user);
      assert i >= 0 by {
        var w :| 0 <= w < |likes| && likes[w].user == user;
        assert Users(likes)[w] == user;
      }
      assert FirstOccurrence(likes, user, i);
      Updated(JsArray.SpliceOne(likes, i))
  }

  /** Reference definition: the list without the first entry of `user`. */
  function RemoveFirst(likes: seq<Like>, user: UserId): seq<Like>
    decreases |likes|
  {
    if |likes| == 0 then []
    else if likes[0].user == user then likes[1..]
    else [likes[0]] + RemoveFirst(likes[1..], user)
  }

  /** Removing at the first occurrence is the reference removal. */
  lemma {:induction false} RemoveFirstAt(likes: seq<Like>, user: UserId, i: int)
    requires FirstOccurrence(likes, user, i)
    ensures RemoveFirst(likes, user) == likes[..i] + likes[i + 1..]
    decreases |likes|
  {
    if i > 0 {
      RemoveFirstAt(likes[1..], user, i - 1);
      assert likes[..i] == [likes[0]] + likes[1..][..i - 1];
      assert likes[i + 1..] == likes[1..][i..];
    }
  }

  /** Unliking agrees with the reference removal whenever it is not refused. */
  lemma RemoveLikeIsRemoveFirst(likes: seq<Like>, user: UserId)
    requires Occurs(likes, user)
    ensures RemoveLike(likes, user) == Updated(RemoveFirst(likes, user))
  {
    var r := RemoveLike(likes, user);
    var i :| FirstOccurrence(likes, user, i) && r.likes == likes[..i] + likes[i + 1..];
    RemoveFirstAt(likes, user, i);
  }

  /** Liking keeps the list duplicate-free, and the liker then occurs exactly once. */
  lemma AddLikeKeepsUnique(likes: seq<Like>, user: UserId)
    requires NoDuplicates(likes)
    requires AddLike(likes, user).Updated?
    ensures NoDuplicates(AddLike(likes, user).likes)
    ensures |LikesBy(AddLike(likes, user).likes, user)| == 1
  {
  }

  /** Dropping one position of a duplicate-free list keeps it duplicate-free
      and removes that position's user from it. */
  lemma DropKeepsUnique(likes: seq<Like>, i: int)
    requires NoDuplicates(likes) && 0 <= i < |likes|
    ensures NoDuplicates(likes[..i] + likes[i + 1..])
    ensures !Occurs(likes[..i] + likes[i + 1..], likes[i].user)
  {
  }

  /** Unliking keeps the list duplicate-free, and afterwards the user no longer occurs. */
  lemma RemoveLikeKeepsUnique(likes: seq<Like>, user: UserId)
    requires NoDuplicates(likes)
    requires RemoveLike(likes, user).Updated?
    ensures NoDuplicates(RemoveLike(likes, user).likes)
    ensures !Occurs(RemoveLike(likes, user).likes, user)
  {
  }

  /** A like followed by an unlike, by a user who had not voted, restores the list. */
  lemma LikeThenUnlike(likes: seq<Like>, user: UserId)
    requires !Occurs(likes, user)
    ensures AddLike(likes, user).Updated?
    ensures RemoveLike(AddLike(likes, user).likes, user) == Updated(likes)
  {
  }

  /** `Scam.findById`. */
  function FindScam(scams: seq<Scam>, id: ScamId): (r: Option<nat>)
    ensures r.Some? ==> r.value < |scams| && scams[r.value].id == id
    ensures r.None? <==> forall k :: 0 <= k < |scams| ==> scams[k].id != id
  {
    FindFirst(scams, (s: Scam) => s.id == id)
  }

  /** Applies a like-list operation to the listing at `found` and saves it. A
      refusal is answered 400 with the given text and saves nothing; an update
      is sent back and saved on that listing, every other listing and every
      other field of it kept as they were. */
  function ApplyToScam(scams: seq<Scam>, update: Update, refusal: string, found: nat):
    (h: Handled<seq<Scam>, seq<Like>>)
    requires found < |scams|
    ensures |h.state| == |scams|
    ensures forall k :: 0 <= k < |scams| && k != found ==> h.state[k] == scams[k]
    ensures h.state[found].id == scams[found].id && h.state[found].title == scams[found].title
    ensures h.state[found].slug == scams[found].slug && h.state[found].author == scams[found].author
    ensures h.state[found].link == scams[found].link
    ensures h.reply.status == 400 <==> update.Refused?
    ensures h.reply.status == 400 ==> h.reply == Text(400, refusal) && h.state == scams
    ensures h.reply.status != 400 ==> h.reply == Json(200, h.state[found].likes) && h.state[found].likes == update.likes
  {
    match update
    case Refused => Handled(Text(400, refusal), scams)
    case Updated(l) => Handled(Json(200, l), scams[found := scams[found].(likes := l)])
  }

  /** `likeScamPost`. */
  function LikeScamPost(scams: seq<Scam>, id: ScamId, user: UserId): (h: Handled<seq<Scam>, seq<Like>>)
    ensures FindScam(scams, id).None? ==> h == Handled(Text(404, LookupFailed), scams)
    ensures FindScam(scams, id).Some? ==> h.reply.status == 200 || h.reply.status == 400
    ensures h.reply.status == 400 <==>
      (FindScam(scams, id).Some? && Occurs(scams[FindScam(scams, id).value].likes, user))
    ensures h.reply.status != 200 ==> h.state == scams
    ensures h.reply.status == 200 ==>
      var i := FindScam(scams, id).value;
      && h.reply == Json(200, [Like(user)] + scams[i].likes)
      && h.state == scams[i := scams[i].(likes := [Like(user)] + scams[i].likes)]
  {
    match FindScam(scams, id)
    case None => Handled(Text(404, LookupFailed), scams)
    case Some(i) => ApplyToScam(scams, AddLike(scams[i].likes, user), AlreadyVoted, i)
  }

  /** `unLikeScamPost`. */
  function UnlikeScamPost(scams: seq<Scam>, id: ScamId, user: UserId): (h: Handled<seq<Scam>, seq<Like>>)
    ensures FindScam(scams, id).None? ==> h == Handled(Text(404, LookupFailed), scams)
    ensures FindScam(scams, id).Some? ==> h.reply.status == 200 || h.reply.status == 400
    ensures h.reply.status == 400 <==>
      (FindScam(scams, id).Some? && !Occurs(scams[FindScam(scams, id).value].likes, user))
    ensures h.reply.status != 200 ==> h.state == scams
    ensures h.reply.status == 200 ==>
      var i := FindScam(scams, id).value;
      var l := RemoveFirst(scams[i].likes, user);
      && h.reply == Json(200, l)
      && h.state == scams[i := scams[i].(likes := l)]
  {
    match FindScam(scams, id)
    case None => Handled(Text(404, LookupFailed), scams)
    case Some(i) =>
      var update := RemoveLike(scams[i].likes, user);
      assert update.Updated? ==> update == Updated(RemoveFirst(scams[i].likes, user)) by {
        if update.Updated? { RemoveLikeIsRemoveFirst(scams[i].likes, user); }
      }
      ApplyToScam(scams, update, NotVoted, i)
  }

  /** Every listing's likes are duplicate-free. */
  predicate AllUnique(scams: seq<Scam>) {
    forall k :: 0 <= k < |scams| ==> NoDuplicates(scams[k].likes)
  }

  /** Both handlers keep every listing's likes duplicate-free. */
  lemma HandlersKeepUnique(scams: seq<Scam>, id: ScamId, user: UserId)
    requires AllUnique(scams)
    ensures AllUnique(LikeScamPost(scams, id, user).state)
    ensures AllUnique(UnlikeScamPost(scams, id, user).state)
  {
    match FindScam(scams, id)
    case None =>
    case Some(i) =>
      var likes := scams[i].likes;
      if AddLike(likes, user).Updated? {
        AddLikeKeepsUnique(likes, user);
      }
      if RemoveLike(likes, user).Updated? {
        RemoveLikeKeepsUnique(likes, user);
        RemoveLikeIsRemoveFirst(likes, user);
      }
  }
}

=== FILE: usermodel.dfy ===
/** The user document: its schema (defaults, enum, lower-cased email, password
    hidden from default selection), the pre-save password hook, and the
    "password changed after the token was issued" check. */
module UserModel {
  import opened Prelude
  import JsString

  /** A document identifier, compared as its string form. */
  type UserId = string

  /** The schema's `role` enum. */
  datatype Role = Admin | User

  function RoleName(r: Role): string {
    match r
    case Admin => "admin"
    case User => "user"
  }

  /** Enum validation: the stored role string must be one of the two names. */
  function ParseRole(s: string): (r: Option<Role>)
    ensures r.Some? <==> s == "admin" || s == "user"
    ensures r.Some? ==> RoleName(r.value) == s
  {
    if s == "admin" then Some(Admin)
    else if s == "user" then Some(User)
    else None
  }

  /** Every role survives being written as its name and validated back. */
  lemma RoleRoundTrip(r: Role)
    ensures ParseRole(RoleName(r)) == Some(r)
  {
  }

  /** The role a new document receives when none is given. */
  const DefaultRole: Role := User

  /** A stored user. `password` is the stored digest; times are milliseconds
      since the epoch; the two reset fields are set while a password reset is
      pending. */
  datatype UserRecord = UserRecord(
    id: UserId,
    name: string,
    email: string,
    password: string,
    role: Role,
    passwordIssueTime: Option<int>,
    resetTokenHash: Option<string>,
    resetExpires: Option<int>)

  /** A loaded document: `password` is present only when the query asked for it. */
  datatype UserView = UserView(
    id: UserId,
    name: string,
    email: string,
    password: Option<string>,
    role: Role,
    passwordIssueTime: Option<int>)

  /** The user fields every response exposes. */
  datatype PublicProfile = PublicProfile(id: UserId, name: string, email: string, role: string)

  /** Loading a document: the password is left out unless selected with "+password". */
  function Select(u: UserRecord, withPassword: bool): (v: UserView)
    ensures v.password.Some? <==> withPassword
    ensures v.password.Some? ==> v.password.value == u.password
    ensures v.id == u.id && v.name == u.name && v.email == u.email && v.role == u.role
    ensures v.passwordIssueTime == u.passwordIssueTime
  {
    UserView(u.id, u.name, u.email, if withPassword then Some(u.password) else None,
             u.role, u.passwordIssueTime)
  }

  function Profile(u: UserRecord): (p: PublicProfile)
    ensures p.id == u.id && p.name == u.name && p.email == u.email
    ensures ParseRole(p.role) == Some(u.role)
  {
    PublicProfile(u.id, u.name, u.email, RoleName(u.role))
  }

  /** True while a password reset is waiting to be redeemed. */
  predicate ResetPending(u: UserRecord) {
    u.resetTokenHash.Some? || u.resetExpires.Some?
  }

  /** A document's password path counts as modified when the value being saved
      differs from the value loaded (a new document, or one loaded without its
      password, has no loaded value). */
  predicate PasswordModified(loaded: Option<string>, current: string) {
    loaded != Some(current)
  }

  /** The pre-save hook: hash the password only when it was modified. */
  function HashOnSave(loaded: Option<string>, current: string, hash: string -> string): (stored: string)
    ensures PasswordModified(loaded, current) ==> stored == hash(current)
    ensures !PasswordModified(loaded, current) ==> Some(stored) == loaded
  {
    if PasswordModified(loaded, current) then hash(current) else current
  }

  /** Saving a loaded document whose password was not touched leaves the
      stored digest as it was, so saving twice never hashes a digest. */
  lemma SaveIsIdempotent(loaded: Option<string>, current: string, hash: string -> string)
    ensures var stored := HashOnSave(loaded, current, hash);
            HashOnSave(Some(stored), stored, hash) == stored
  {
  }

  /** A user built from registration input: schema setters and defaults, then
      the pre-save hook of a new document. */
  function NewUser(id: UserId, name: string, email: string, password: string,
                   hash: string -> string): (u: UserRecord)
    ensures u.id == id && u.name == name
    ensures u.role == DefaultRole && RoleName(u.role) == "user"
    ensures u.email == JsString.ToLowerCase(email) && JsString.IsLowerCase(u.email)
    ensures u.password == hash(password)
    ensures u.passwordIssueTime.None? && !ResetPending(u)
  {
    var draft := UserRecord(id, name, JsString.ToLowerCase(email), password, DefaultRole, None, None, None);
    draft.(password := HashOnSave(None, draft.password, hash))
  }

  /** `parseInt(ms / 1000, 10)`: whole seconds, truncated toward zero. */
  function TruncSeconds(ms: int): (s: int)
    ensures ms >= 0 ==> 0 <= s && s * 1000 <= ms < s * 1000 + 1000
    ensures ms < 0 ==> s <= 0 && s * 1000 - 1000 < ms <= s * 1000
  {
    if ms >= 0 then ms / 1000 else -((-ms) / 1000)
  }

  /** `passwordChagedAfterJWT`: true when a password issue time is recorded
      and its whole second is later than the token's issue second. */
  predicate PasswordChangedAfterJwt(passwordIssueTime: Option<int>, jwtIssueTime: int)
    ensures PasswordChangedAfterJwt(passwordIssueTime, jwtIssueTime) <==>
      && passwordIssueTime.Some?
      && (passwordIssueTime.value >= 0 ==> passwordIssueTime.value >= (jwtIssueTime + 1) * 1000)
      && (passwordIssueTime.value < 0 ==> passwordIssueTime.value > jwtIssueTime * 1000)
  {
    match passwordIssueTime
    case None => false
    case Some(ms) => TruncSeconds(ms) > jwtIssueTime
  }

  /** A change in the token's issue second itself counts as not changed. The
      first clause is the post-epoch case of the check's own characterisation,
      restated for a single time; the second is the point of the lemma. */
  lemma ChangedIffLaterSecond(ms: int, iat: int)
    requires ms >= 0
    ensures PasswordChangedAfterJwt(Some(ms), iat) <==> ms >= (iat + 1) * 1000
    ensures iat * 1000 <= ms < iat * 1000 + 1000 ==> !PasswordChangedAfterJwt(Some(ms), iat)
  {
  }

  /** A token that passes the check keeps passing for every later issue time. */
  lemma ChangedIsMonotone(passwordIssueTime: Option<int>, iat: int, later: int)
    requires iat <= later
    ensures !PasswordChangedAfterJwt(passwordIssueTime, iat) ==> !PasswordChangedAfterJwt(passwordIssueTime, later)
  {
  }

  /** First stored user with this id (`findById`). */
  function FindById(users: seq<UserRecord>, id: UserId): (r: Option<nat>)
    ensures r.Some? ==> r.value < |users| && users[r.value].id == id
    ensures r.None? <==> forall k :: 0 <= k < |users| ==> users[k].id != id
  {
    FindFirst(users, (u: UserRecord) => u.id == id)
  }

  /** First stored user with this email. The schema's lower-case setter is also
      applied to query values, so the query text is lower-cased first. */
  function FindByEmail(users: seq<UserRecord>, email: string): (r: Option<nat>)
    ensures r.Some? ==> r.value < |users| && users[r.value].email == JsString.ToLowerCase(email)
    ensures r.None? <==> forall k :: 0 <= k < |users| ==> users[k].email != JsString.ToLowerCase(email)
  {
    var key := JsString.ToLowerCase(email);
    FindFirst(users, (u: UserRecord) => u.email == key)
  }

  predicate UniqueIds(users: seq<UserRecord>) {
    forall j, k :: 0 <= j < k < |users| ==> users[j].id != users[k].id
  }

  predicate UniqueEmails(users: seq<UserRecord>) {
    forall j, k :: 0 <= j < k < |users| ==> users[j].email != users[k].email
  }

  /** The collection invariants the schema's unique indexes and setters keep. */
  predicate WellFormed(users: seq<UserRecord>) {
    && UniqueIds(users)
    && UniqueEmails(users)
    && forall k :: 0 <= k < |users| ==> JsString.IsLowerCase(users[k].email)
  }

  /** With unique ids, `findById` finds the one user carrying the id. */
  lemma FindByIdUnique(users: seq<UserRecord>, k: nat)
    requires UniqueIds(users) && k < |users|
    ensures FindById(users, users[k].id) == Some(k)
  {
  }

  /** Changing records without touching their ids leaves every `findById` answer alone. */
  lemma FindByIdIgnoresOtherFields(a: seq<UserRecord>, b: seq<UserRecord>, id: UserId)
    requires |a| == |b|
    requires forall k :: 0 <= k < |a| ==> a[k].id == b[k].id
    ensures FindById(a, id) == FindById(b, id)
  {
  }
}
